=== FILE: README.md ===
# Availability scheduler: a Dafny model of its logic

The application lets invitees say which candidate dates of one event suit
them, and lets allow-listed administrators see, per date, who is available
and which date wins. Storage and authentication belong to an external
managed backend, and the pages are React components. This project models
the three pieces of plain logic inside that plumbing and proves what they
promise:

- **The administrator's results page** (`AdminResults.dfy`, from
  `app/admin/page.tsx`). It covers the allow-list check on the session's
  email, the per-date tally of responses, the winning date (a left-to-right
  `reduce` from a sentinel with total -1) and the plain-text export. The
  query results are inputs to these functions. A missing value (`null`) is
  `None`.
- **The availability form** (`AvailabilityForm.dfy`, from
  `app/AvailabilityForm.tsx`). The derived values are functions: the toggled
  selection, the sorted dates, `canContinue`, `canSubmit` and
  `isLoadingDates`. The component's three state fields (`step`, `name`,
  `selectedDates`) live in the class `Wizard`, with one method per event
  handler. Each method's precondition names the step in which its control is
  rendered. `Toggle` also requires that the value be one of the sorted
  dates, because only the date buttons call `toggleDate`. Under these rules
  the class keeps three invariants:
  - the selection never holds a date twice;
  - it only holds offered dates;
  - the dates step is reached only with a name that passes `canContinue`.
- **The submission action** (`SubmitAction.dfy`, from `app/actions.ts`).
  `Submit` is a pure specification: given the stored rows, a form and the
  store's answer to the insert, it returns the new rows and the redirect.
  `ResponseStore` holds the `responses` collection as a sequence that
  `Insert` can only extend. `SubmitAvailability` is the action itself, with
  its early exits, and is proved equal to `Submit`.

`Text.dfy` states the JavaScript string operations these rely on:

- `trim`, with ECMAScript's whitespace and line terminators;
- `split` on one character;
- `join`;
- `length`, which counts UTF-16 code units;
- the decimal rendering of a number in a template literal;
- the order used to sort date strings.

`Wrappers.dfy` holds `Option`.

Three behaviours of the code worth knowing:

- The name step checks the UTF-16 `length` of the trimmed name, so a name
  made of one character outside the Basic Multilingual Plane (an emoji, say)
  passes `canContinue` (`AstralCharContinues`).
- The action trims the event id as well as the name before checking it.
- `toggleDate` works on a list and removes every occurrence of the value. It
  is not a set operation, although the list never holds a value twice
  (`ToggleKeepsNoDuplicates`).

The export round trip splits the text at line breaks and reads each line
back as a date, a count and the names text. It is proved for dates without
spaces (as ISO dates are) and for dates and names without line breaks. A
guest name that holds a line break would split its line in two. The names
text splits back into the names when no name holds a comma; a date with no
guests gives an empty names text.

The winning card is marked by comparing date values. The dates are not
required to be distinct, so when a date value repeats, every card carrying
the winner's value is marked. `WinnerCardIffFirstMaximum` speaks only of
distinct dates.

## Model

| member | source | states |
|---|---|---|
| Text.Utf16Length | app/AvailabilityForm.tsx:115 | `length` counts UTF-16 code units: at least one and at most two per character. |
| Text.Utf16LengthChar | app/AvailabilityForm.tsx:115 | One character has length 1 in the Basic Multilingual Plane and 2 (a surrogate pair) above it. |
| Text.Utf16LengthConcat | app/AvailabilityForm.tsx:115 | `length` adds up over concatenation. With `Utf16LengthChar` this fixes the value on every string. |
| Text.Trim | app/admin/page.tsx:8 | `trim()` keeps a slice of the input. What it cuts on either side is whitespace, and the result neither starts nor ends with whitespace. |
| Text.Split | app/admin/page.tsx:7 | `split(",")` gives at least one piece (`""` gives `[""]`), and no piece holds the separator. |
| Text.JoinSplit | app/admin/page.tsx:7 | Joining the pieces of a split with the same separator gives back the original string. |
| Text.SplitJoin | app/admin/page.tsx:131-138 | Splitting a join of separator-free parts gives back exactly the parts. |
| Text.Join | app/admin/page.tsx:135-138 | Definition only (`Array.prototype.join`, used with `", "` and with a line break). What it produces is stated by `JoinSplit`, `SplitJoin` and `JoinStartsWithFirst`. |
| Text.NatToString | app/admin/page.tsx:134 | The rendering of a non-negative `${item.total}`: at least one character, all decimal digits, no leading zero. `ParseNatToString` reads it back as the number. |
| Text.IntToString | app/admin/page.tsx:134 | The rendering of any `${item.total}`: digits that read back as the number, after a minus sign when it is negative. |
| Text.LexLessEq | app/AvailabilityForm.tsx:111 | Definition only: code-point lexicographic order, standing in for `a.localeCompare(b)`. `LexReflexive`, `LexTotal`, `LexTransitive` and `LexAntisymmetric` make it a total order. |
| Text.TrimEmptyIffBlank | app/actions.ts:12-16 | A field trims to the empty string exactly when every character of it is whitespace. |
| AdminResults.TrimAll | app/admin/page.tsx:8 | One trimmed piece per piece, in order: an entry is in the result exactly when it is the trim of some piece. |
| AdminResults.NonEmpty | app/admin/page.tsx:9 | `filter(Boolean)` keeps exactly the non-empty strings. |
| AdminResults.AdminEmailsValue | app/admin/page.tsx:6 | Definition only: the variable `ADMIN_EMAILS`, or `""` when it is unset. What the list then holds is stated by `AllowList`. |
| AdminResults.AllowList | app/admin/page.tsx:6-9 | The parsed list holds exactly the non-empty trims of the comma-separated pieces of `ADMIN_EMAILS` (unset reads as empty). No entry is empty, and none starts or ends with whitespace. |
| AdminResults.IsAllowedAdmin | app/admin/page.tsx:5-11 | Allowed iff the email is present, non-empty and equal to the trim of some comma-separated piece. A null, undefined or empty email is never allowed, whatever the list holds. |
| AdminResults.UntrimmedEmailRejected | app/admin/page.tsx:11 | The email itself is not trimmed: one with whitespace at either end is never allowed. |
| AdminResults.ListedEmailAllowed | app/admin/page.tsx:6-11 | For a list written as comma-joined entries, each non-blank entry admits its trimmed form. |
| AdminResults.ChoseDate | app/admin/page.tsx:121 | Definition only (`r.available_dates?.includes(date)`); the guests it selects are stated by `GuestsFor`. |
| AdminResults.GuestsFor | app/admin/page.tsx:120-122 | The guests of a date are exactly the responses whose `available_dates` contain it. A response without `available_dates` is a guest of no date. |
| AdminResults.GuestsForCountsVoters | app/admin/page.tsx:120-123 | The number of guests equals the number of positions of responses that chose the date. |
| AdminResults.GuestsForConcat | app/admin/page.tsx:120-122 | The filter keeps response order: the guests of `a + b` are the guests of `a` followed by those of `b`. |
| AdminResults.Tally | app/admin/page.tsx:119-124 | One entry per date, in the order of the dates. Each entry holds its date, that date's guests and `total` equal to the number of guests. |
| AdminResults.Availability | app/admin/page.tsx:119-124 | One entry per loaded date (none when the date list is missing), in order, with a non-negative total. A missing response list gives every date no guests and total 0. |
| AdminResults.AvailabilityCountsVoters | app/admin/page.tsx:119-124 | Each date's total is the number of responses whose dates include it. |
| AdminResults.PageAvailability | app/admin/page.tsx:101-124 | With no event nothing is tallied; with an event there is one entry per loaded date. |
| AdminResults.NoWinner | app/admin/page.tsx:128 | Definition only: the `reduce` start, with date `""`, no guests and total -1. `WinnerIsFirstMaximum` states that it is the winner exactly when there are no dates. |
| AdminResults.Better | app/admin/page.tsx:126-129 | The reducer keeps the entry with the higher total, and on a tie (or a lower total) it keeps the current one. |
| AdminResults.Reduce | app/admin/page.tsx:126-129 | The reduce returns its start value or one of the items, and its total is at least the start's and every item's. |
| AdminResults.Winner | app/admin/page.tsx:126-129 | `winner` is the sentinel or a date of the list, with a total no lower than any date's. When some total is non-negative it is a date of the list. |
| AdminResults.FirstMaximum | app/admin/page.tsx:126-129 | A reference for the winner: the index of the first entry with the highest total. |
| AdminResults.ReduceFindsFirstMaximum | app/admin/page.tsx:126-129 | The left-to-right reduce from any start value lower than the maximum returns the first entry with the maximum total. |
| AdminResults.WinnerIsFirstMaximum | app/admin/page.tsx:126-129 | With no dates the winner is the sentinel (`""`, no guests, -1). Otherwise it is the first date with the highest total, so ties keep the earlier date. |
| AdminResults.ShowsBanner | app/admin/page.tsx:166 | The banner `winner.total > 0` shows only when some date has a vote. |
| AdminResults.IsWinnerCard | app/admin/page.tsx:185 | Definition only (`item.date === winner.date`); which card it marks is stated by `WinnerCardIffFirstMaximum` and `NoVotesMarksFirstCard`. |
| AdminResults.WinnerCardIffFirstMaximum | app/admin/page.tsx:185 | For distinct dates with non-negative totals, a card is marked (`item.date === winner.date`) exactly when its date is the first with the highest total. |
| AdminResults.BannerIffSomeVote | app/admin/page.tsx:166 | The banner `winner.total > 0` shows exactly when some date has at least one vote. |
| AdminResults.NoVotesMarksFirstCard | app/admin/page.tsx:185 | When every date has zero votes, the winner is the first date: its card is marked and no banner shows. |
| AdminResults.TwoDatesExample | app/admin/page.tsx:119-129 | Worked example with two dates, Ana choosing the first and Leo both: the counts are 2 and 1, and the first date wins with a banner. |
| AdminResults.Names | app/admin/page.tsx:134-135 | One name per guest, in guest order. |
| AdminResults.Line | app/admin/page.tsx:133-135 | A line starts with its date and ends with the guest names joined by `", "`. What lies between is stated by `LineRoundTrip`. |
| AdminResults.Lines | app/admin/page.tsx:131-136 | One line per date, in order. |
| AdminResults.ResultsText | app/admin/page.tsx:131-138 | The export is empty exactly when there are no dates. |
| AdminResults.ResultsTextSplitsIntoLines | app/admin/page.tsx:131-138 | No dates give the empty text. Otherwise, splitting the text at line breaks gives exactly one line per date, in order (for fields without line breaks). |
| AdminResults.LineRoundTrip | app/admin/page.tsx:133-136 | A line `date - N votos - names` reads back as its date, its count N and the guest names joined by `", "`, for a date without spaces. |
| AdminResults.ExportRoundTrip | app/admin/page.tsx:131-138 | Splitting the export into lines and reading each one gives back every date, its count and its names text, in order. |
| AdminResults.NamesReadBack | app/admin/page.tsx:134-135 | For at least one guest, with names that hold no comma and are trimmed (as the action stores them), splitting the names text at commas and trimming each piece gives the names back in guest order. |
| AvailabilityForm.RemoveAll | app/AvailabilityForm.tsx:122 | The filter removes every occurrence of the value and keeps every other element with its multiplicity. |
| AvailabilityForm.RemoveAllConcat | app/AvailabilityForm.tsx:122 | The filter distributes over concatenation, so the kept elements stay in their order. |
| AvailabilityForm.RemoveSelected | app/AvailabilityForm.tsx:121-122 | Unselecting the date at position `i` of a duplicate-free selection gives the dates before it followed by the dates after it. |
| AvailabilityForm.ToggleDate | app/AvailabilityForm.tsx:119-125 | Toggling flips the value's membership and never changes the membership of any other value. A present value is filtered out with all its occurrences, the rest in order; an absent one is appended at the end. |
| AvailabilityForm.ToggleTwiceRestores | app/AvailabilityForm.tsx:121-123 | Toggling an absent value twice gives back the original selection. |
| AvailabilityForm.ToggleKeepsNoDuplicates | app/AvailabilityForm.tsx:119-125 | A duplicate-free selection stays duplicate-free after a toggle. |
| AvailabilityForm.Insert | app/AvailabilityForm.tsx:111 | Inserting into a sorted list keeps it sorted and adds exactly the new element. |
| AvailabilityForm.SortDates | app/AvailabilityForm.tsx:110-113 | `sortedDates` is ascending and is a permutation of `dates`. |
| AvailabilityForm.SortedPermutationUnique | app/AvailabilityForm.tsx:111 | Two ascending permutations of the same dates are equal, so any correct sort yields `SortDates`. |
| AvailabilityForm.CanContinue | app/AvailabilityForm.tsx:115 | A name that passes is not blank, and any name of at least two characters after trimming passes. |
| AvailabilityForm.AstralCharContinues | app/AvailabilityForm.tsx:115 | A name of one character outside the Basic Multilingual Plane passes `canContinue`, since its `length` is 2. |
| AvailabilityForm.BmpNameContinues | app/AvailabilityForm.tsx:115 | For a name in the Basic Multilingual Plane, `canContinue` holds exactly when the trimmed name has more than one character. |
| AvailabilityForm.CanSubmit | app/AvailabilityForm.tsx:116 | Definition only (`selectedDates.length > 0`); what it decides is stated by `SubmitDisabled`. |
| AvailabilityForm.IsLoadingDates | app/AvailabilityForm.tsx:117 | Definition only (`sortedDates.length === 0`); what it decides is stated by `SubmitDisabled`. |
| AvailabilityForm.SubmitDisabled | app/AvailabilityForm.tsx:282 | The submit button, disabled when `canSubmit` fails or the dates are loading, is enabled exactly when the selection and the date list are both non-empty. |
| AvailabilityForm.SingleCharacterNameGap | app/AvailabilityForm.tsx:115 | A one-character name (in the Basic Multilingual Plane) cannot leave the name step, yet the action accepts it. |
| AvailabilityForm.Wizard.constructor | app/AvailabilityForm.tsx:106-108 | The initial state is the name step, an empty name and an empty selection. It satisfies the invariant. |
| AvailabilityForm.Wizard.SetName | app/AvailabilityForm.tsx:172-174 | Typing sets `name` and nothing else. |
| AvailabilityForm.Wizard.ShowDates | app/AvailabilityForm.tsx:178-181 | "Ver fechas" moves to the dates step exactly when `name.trim().length > 1`. Name and selection are unchanged. |
| AvailabilityForm.Wizard.EditName | app/AvailabilityForm.tsx:202-204 | "Editar nombre" returns to the name step. Name and selection are unchanged. |
| AvailabilityForm.Wizard.Toggle | app/AvailabilityForm.tsx:233-241 | A date button sets the selection to its toggle. Step and name are unchanged, and the selection stays duplicate-free. |
| AvailabilityForm.Wizard.Clear | app/AvailabilityForm.tsx:267-269 | "Limpiar" empties the selection and changes nothing else. |
| AvailabilityForm.Wizard.HiddenFields | app/AvailabilityForm.tsx:276-282 | The posted fields are the event id, the untrimmed name and the selection, in selection order. The `dates` values are duplicate-free and all offered. When the button is enabled and the event id is not blank, the action's checks pass. |
| SubmitAction.FieldValue | app/actions.ts:12-13 | A missing field reads as `""`. The value is trimmed, so it neither starts nor ends with whitespace. |
| SubmitAction.IsValid | app/actions.ts:12-18 | A form passes exactly when neither field is missing or blank and at least one date was sent. |
| SubmitAction.RowOf | app/actions.ts:20-24 | The row keeps the dates as sent. A valid form gives a non-empty id, name and date list. |
| SubmitAction.BlankFieldsRejected | app/actions.ts:12-18 | A missing or blank event id, a missing or blank name, or no dates gives the error redirect and leaves the rows unchanged. |
| SubmitAction.Submit | app/actions.ts:16-30 | Success iff the checks pass and the store accepts the insert. On success exactly one row is appended (trimmed id, trimmed name, dates as sent, order and duplicates kept), earlier rows are untouched, and the redirect carries the trimmed name. Otherwise the rows are unchanged. |
| SubmitAction.ResubmissionAppendsTwice | app/actions.ts:20-24 | The same valid form accepted twice appends two identical rows: nothing is deduplicated. |
| SubmitAction.SingleCharacterNameAccepted | app/actions.ts:13-16 | A one-character, non-whitespace name passes the action's checks. |
| SubmitAction.RedirectUrl | app/actions.ts:26-30 | An error gives `/?error=1`. Only a success gives a URL starting with `/?sent=1`, and that URL is `/?sent=1&name=` followed by the encoded trimmed name. |
| SubmitAction.ResponseStore.Insert | app/actions.ts:20-24 | An accepted insert appends the row. A rejected one reports an error and changes nothing. |
| SubmitAction.SubmitAvailability | app/actions.ts:11-31 | The action, with its early-exit redirects, leaves the store and returns the redirect exactly as `Submit` prescribes. |

## Left out

- Data-store queries (app/admin/page.tsx:95-117): their results are inputs. The model does not enforce ascending order of dates or responses. The winner lemmas speak of "first in the given order", which is calendar order when the query sorts the dates.
- Authentication: the session lookup, magic-link sign-in, sign-out and the cookie-refreshing middleware. These are calls into the auth provider's client library. middleware.ts and app/admin/actions.ts are not part of this model.
- app/page.tsx (event loading, `decodeName`) and app/admin/CopyResultsButton.tsx (clipboard and timers) are not part of this model.
- Rendering: JSX, animation, the pending state of the submit button, and the date labels from `Intl.DateTimeFormat`.
- `localeCompare` is modelled as code-point lexicographic order. This agrees with the locale's collation on ISO date strings, but not in general.
- `encodeURIComponent` is an uninterpreted parameter of `RedirectUrl`.
- `formData.get` can return a file. The model's form fields are strings only.
- Strings are sequences of Unicode scalar values, so lone UTF-16 surrogates cannot be represented. Only `length` is modelled on UTF-16 code units.
- The thrown control flow of `redirect` is modelled as an early return.
- The data store's failure is an input to the submission. Retries, logging and concurrent inserts do not exist in the source.

=== FILE: AdminResults.dfy ===
/**
 * The administrator's results page: who may see it, how many responses chose
 * each candidate date, which date wins, and the plain-text summary that the
 * copy button puts on the clipboard. The data-store queries are not modelled;
 * their results are the inputs of these functions.
 */
module AdminResults {
  import opened Wrappers
  import opened Text

  // ---------------------------------------------------------------------------
  // Allow-list
  // ---------------------------------------------------------------------------

  /** `process.env.ADMIN_EMAILS || ""`: an unset variable reads as the empty string. */
  function AdminEmailsValue(adminEmails: Option<string>): string {
    adminEmails.GetOr("")
  }

  /** `.map((item) => item.trim())`. */
  function TrimAll(pieces: seq<string>): (r: seq<string>)
    ensures |r| == |pieces|
    ensures forall i :: 0 <= i < |pieces| ==> r[i] == Trim(pieces[i])
    ensures forall e :: e in r <==> exists p :: p in pieces && Trim(p) == e
  {
    if pieces == [] then []
    else
      assert forall p :: p in pieces <==> p == pieces[0] || p in pieces[1..];
      [Trim(pieces[0])] + TrimAll(pieces[1..])
  }

  /** `.filter(Boolean)` on strings: the non-empty ones, in order. */
  function NonEmpty(xs: seq<string>): (r: seq<string>)
    ensures forall x :: x in r <==> x in xs && x != []
  {
    if xs == [] then [] else (if xs[0] == [] then [] else [xs[0]]) + NonEmpty(xs[1..])
  }

  /** The configured allow-list: the comma-separated entries, trimmed, empty ones dropped. */
  function AllowList(adminEmails: Option<string>): (list: seq<string>)
    ensures forall e :: e in list ==> e != [] && !IsWhitespace(e[0]) && !IsWhitespace(e[|e| - 1])
    ensures forall e :: e in list <==>
      e != [] && exists p :: p in Split(AdminEmailsValue(adminEmails), ',') && Trim(p) == e
  {
    NonEmpty(TrimAll(Split(AdminEmailsValue(adminEmails), ',')))
  }

  /**
   * `isAllowedAdmin(email)`: a missing or empty email is never allowed;
   * otherwise the email, exactly as the session gives it, must equal one of
   * the trimmed entries of the configured list.
   */
  function IsAllowedAdmin(email: Option<string>, adminEmails: Option<string>): (allowed: bool)
    ensures allowed <==> (email.Some? && email.value != []
      && exists p :: p in Split(AdminEmailsValue(adminEmails), ',') && Trim(p) == email.value)
    ensures email == None || email == Some([]) ==> !allowed
  {
    email.Some? && email.value != [] && email.value in AllowList(adminEmails)
  }

  /** The session's email is compared untrimmed: one with whitespace at either end never matches. */
  lemma UntrimmedEmailRejected(email: string, adminEmails: Option<string>)
    requires email != [] && (IsWhitespace(email[0]) || IsWhitespace(email[|email| - 1]))
    ensures !IsAllowedAdmin(Some(email), adminEmails)
  {
  }

  /**
   * Every entry of a list written as comma-separated entries admits exactly
   * its trimmed form, whatever whitespace surrounds it in the configuration.
   */
  lemma ListedEmailAllowed(entries: seq<string>, i: nat)
    requires i < |entries|
    requires forall j :: 0 <= j < |entries| ==> ',' !in entries[j]
    requires Trim(entries[i]) != []
    ensures IsAllowedAdmin(Some(Trim(entries[i])), Some(Join(entries, ",")))
  {
    SplitJoin(entries, ',');
    assert entries[i] in Split(AdminEmailsValue(Some(Join(entries, ","))), ',');
  }

  // ---------------------------------------------------------------------------
  // Per-date vote counting
  // ---------------------------------------------------------------------------

  /** The event the page shows (`events?.[0]`). */
  datatype EventRow = EventRow(id: string, title: string, description: Option<string>)

  /** A `responses` row as the page selects it; `available_dates` may be missing. */
  datatype ResponseRow = ResponseRow(
    id: string,
    guestName: string,
    availableDates: Option<seq<string>>,
    createdAt: string)

  /** One entry of `availability`: a date, the responses that chose it, and how many they are. */
  datatype DateTally = DateTally(date: string, guests: seq<ResponseRow>, total: int)

  /** `r.available_dates?.includes(date)`: a response without dates chooses none. */
  predicate ChoseDate(r: ResponseRow, date: string) {
    r.availableDates.Some? && date in r.availableDates.value
  }

  /** `responses.filter((r) => r.available_dates?.includes(date))`. */
  function GuestsFor(date: string, responses: seq<ResponseRow>): (guests: seq<ResponseRow>)
    ensures |guests| <= |responses|
    ensures forall g :: g in guests ==> g in responses && ChoseDate(g, date)
    ensures forall r :: r in responses && ChoseDate(r, date) ==> r in guests
  {
    if responses == [] then []
    else
      var n := |responses|;
      assert responses == responses[..n - 1] + [responses[n - 1]];
      GuestsFor(date, responses[..n - 1]) + (if ChoseDate(responses[n - 1], date) then [responses[n - 1]] else [])
  }

  /** The positions of the responses that chose `date`. */
  ghost function Voters(date: string, responses: seq<ResponseRow>): set<int> {
    set i | 0 <= i < |responses| && ChoseDate(responses[i], date)
  }

  /** Adding one response adds its position to the voters exactly when it chose the date. */
  lemma VotersSnoc(date: string, responses: seq<ResponseRow>)
    requires responses != []
    ensures var n := |responses|;
      Voters(date, responses)
        == Voters(date, responses[..n - 1]) + (if ChoseDate(responses[n - 1], date) then {n - 1} else {})
  {
    var n := |responses|;
    var front := responses[..n - 1];
    var last: set<int> := if ChoseDate(responses[n - 1], date) then {n - 1} else {};
    forall i | i in Voters(date, responses) ensures i in Voters(date, front) + last {
      if i < n - 1 {
        assert front[i] == responses[i];
      }
    }
    forall i | i in Voters(date, front) + last ensures i in Voters(date, responses) {
      if i < n - 1 {
        assert front[i] == responses[i];
      }
    }
  }

  /** One more response adds one guest exactly when it chose the date. */
  lemma GuestsForSnocLength(date: string, responses: seq<ResponseRow>)
    requires responses != []
    ensures var n := |responses|;
      |GuestsFor(date, responses)|
        == |GuestsFor(date, responses[..n - 1])| + (if ChoseDate(responses[n - 1], date) then 1 else 0)
  {
  }

  /** The number of guests of a date is the number of responses that chose it. */
  lemma {:induction false} GuestsForCountsVoters(date: string, responses: seq<ResponseRow>)
    ensures |GuestsFor(date, responses)| == |Voters(date, responses)|
  {
    if responses != [] {
      var n := |responses|;
      var front := responses[..n - 1];
      var before := Voters(date, front);
      var extra: set<int> := if ChoseDate(responses[n - 1], date) then {n - 1} else {};
      GuestsForCountsVoters(date, front);
      GuestsForSnocLength(date, responses);
      VotersSnoc(date, responses);
      assert n - 1 !in before;
      assert |before + extra| == |before| + |extra|;
    }
  }

  /** The guests among responses with one more at the end. */
  lemma GuestsForSnoc(date: string, responses: seq<ResponseRow>, r: ResponseRow)
    ensures GuestsFor(date, responses + [r]) == GuestsFor(date, responses) + (if ChoseDate(r, date) then [r] else [])
  {
    var t := responses + [r];
    assert t[..|t| - 1] == responses;
  }

  /**
   * Guests keep the order of the responses: the guests among two runs of
   * responses are the guests of the first run followed by those of the second.
   */
  lemma {:induction false} GuestsForConcat(date: string, a: seq<ResponseRow>, b: seq<ResponseRow>)
    ensures GuestsFor(date, a + b) == GuestsFor(date, a) + GuestsFor(date, b)
  {
    if b == [] {
      assert a + b == a;
    } else {
      var n := |b|;
      var front, x := b[..n - 1], b[n - 1];
      var last := if ChoseDate(x, date) then [x] else [];
      assert b == front + [x];
      assert a + b == (a + front) + [x];
      GuestsForSnoc(date, a + front, x);
      GuestsForSnoc(date, front, x);
      GuestsForConcat(date, a, front);
      var p, q := GuestsFor(date, a), GuestsFor(date, front);
      assert (p + q) + last == p + (q + last);
    }
  }

  /** The tally of each date, in the order of the dates. */
  function Tally(dates: seq<string>, responses: seq<ResponseRow>): (av: seq<DateTally>)
    ensures |av| == |dates|
    ensures forall i :: 0 <= i < |av| ==>
      av[i].date == dates[i] && av[i].guests == GuestsFor(dates[i], responses) && av[i].total == |av[i].guests|
  {
    if dates == [] then []
    else
      var guests := GuestsFor(dates[0], responses);
      [DateTally(dates[0], guests, |guests|)] + Tally(dates[1..], responses)
  }

  /**
   * `availability`: `dates || []` mapped to their tallies, where a missing
   * response list (`responses?.filter(...) ?? []`) gives every date no guests.
   */
  function Availability(dates: Option<seq<string>>, responses: Option<seq<ResponseRow>>): (av: seq<DateTally>)
    ensures |av| == |dates.GetOr([])|
    ensures forall i :: 0 <= i < |av| ==> av[i].date == dates.GetOr([])[i] && av[i].total >= 0
    ensures responses == None ==> forall i :: 0 <= i < |av| ==> av[i].guests == [] && av[i].total == 0
  {
    Tally(dates.GetOr([]), responses.GetOr([]))
  }

  /** Each date's total is the number of responses whose dates include it. */
  lemma AvailabilityCountsVoters(dates: seq<string>, responses: seq<ResponseRow>, i: nat)
    requires i < |dates|
    ensures |Availability(Some(dates), Some(responses))| == |dates|
    ensures Availability(Some(dates), Some(responses))[i].total == |Voters(dates[i], responses)|
  {
    GuestsForCountsVoters(dates[i], responses);
  }

  /**
   * The tallies the page computes from what it loaded: with no event, neither
   * dates nor responses are queried and there is nothing to tally.
   */
  function PageAvailability(
    event: Option<EventRow>,
    datesQuery: Option<seq<string>>,
    responsesQuery: Option<seq<ResponseRow>>): (av: seq<DateTally>)
    ensures event == None ==> av == []
    ensures event != None ==> |av| == |datesQuery.GetOr([])|
  {
    if event == None then Availability(Some([]), Some([]))
    else Availability(datesQuery, responsesQuery)
  }

  // ---------------------------------------------------------------------------
  // Winner selection
  // ---------------------------------------------------------------------------

  /** The initial value of the `reduce`: no date, no guests, total -1. */
  const NoWinner := DateTally("", [], -1)

  /** The reducer: a later item replaces the current one only when its total is strictly higher. */
  function Better(current: DateTally, item: DateTally): (best: DateTally)
    ensures best == current || best == item
    ensures best.total >= current.total && best.total >= item.total
    ensures item.total <= current.total ==> best == current
  {
    if item.total > current.total then item else current
  }

  /** `items.reduce(Better, acc)`, left to right. */
  function Reduce(acc: DateTally, items: seq<DateTally>): (best: DateTally)
    ensures best == acc || best in items
    ensures best.total >= acc.total
    ensures forall j :: 0 <= j < |items| ==> items[j].total <= best.total
    decreases |items|
  {
    if items == [] then acc
    else
      assert forall j :: 1 <= j < |items| ==> items[j] == items[1..][j - 1];
      Reduce(Better(acc, items[0]), items[1..])
  }

  /** `winner`. */
  function Winner(av: seq<DateTally>): (winner: DateTally)
    ensures winner == NoWinner || winner in av
    ensures forall j :: 0 <= j < |av| ==> av[j].total <= winner.total
    ensures (exists j :: 0 <= j < |av| && av[j].total >= 0) ==> winner in av
  {
    Reduce(NoWinner, av)
  }

  /** `av[k]` has the highest total and is the first entry with it. */
  ghost predicate IsFirstMaximum(av: seq<DateTally>, k: nat) {
    k < |av|
    && (forall j :: 0 <= j < |av| ==> av[j].total <= av[k].total)
    && (forall j :: 0 <= j < k ==> av[j].total < av[k].total)
  }

  /** The position of the first entry with the highest total. */
  function FirstMaximum(av: seq<DateTally>): (k: nat)
    requires av != []
    ensures IsFirstMaximum(av, k)
  {
    if |av| == 1 then 0
    else
      var n := |av|;
      var k := FirstMaximum(av[..n - 1]);
      assert forall j :: 0 <= j < n - 1 ==> av[..n - 1][j] == av[j];
      if av[n - 1].total > av[k].total then n - 1 else k
  }

  lemma {:induction false} ReduceKeeps(acc: DateTally, items: seq<DateTally>)
    requires forall j :: 0 <= j < |items| ==> items[j].total <= acc.total
    ensures Reduce(acc, items) == acc
  {
    if items != [] {
      ReduceKeeps(acc, items[1..]);
    }
  }

  lemma {:induction false} ReduceFindsFirstMaximum(acc: DateTally, items: seq<DateTally>, k: nat)
    requires IsFirstMaximum(items, k) && acc.total < items[k].total
    ensures Reduce(acc, items) == items[k]
    decreases k
  {
    if k == 0 {
      ReduceKeeps(items[0], items[1..]);
    } else {
      var best := Better(acc, items[0]);
      assert IsFirstMaximum(items[1..], k - 1);
      ReduceFindsFirstMaximum(best, items[1..], k - 1);
    }
  }

  /**
   * With no dates the winner is the sentinel; otherwise it is the first date
   * with the highest total, so ties go to the earlier date.
   */
  lemma WinnerIsFirstMaximum(av: seq<DateTally>)
    requires forall i :: 0 <= i < |av| ==> av[i].total >= 0
    ensures av == [] ==> Winner(av) == NoWinner
    ensures av != [] ==> Winner(av) == av[FirstMaximum(av)]
  {
    if av != [] {
      ReduceFindsFirstMaximum(NoWinner, av, FirstMaximum(av));
    }
  }

  /**
   * Two dates, Ana choosing the first and Leo both: two votes and one, and
   * the first date wins.
   */
  lemma TwoDatesExample()
    ensures var ana := ResponseRow("1", "Ana", Some(["2024-05-01"]), "t1");
      var leo := ResponseRow("2", "Leo", Some(["2024-05-01", "2024-05-02"]), "t2");
      var av := Availability(Some(["2024-05-01", "2024-05-02"]), Some([ana, leo]));
      |av| == 2 && av[0].total == 2 && av[1].total == 1 && av[1].guests == [leo]
      && Winner(av) == av[0] && ShowsBanner(av)
  {
  }

  /** The banner condition `winner.total > 0`. */
  predicate ShowsBanner(av: seq<DateTally>): (shown: bool)
    ensures shown ==> exists i :: 0 <= i < |av| && av[i].total > 0
  {
    Winner(av).total > 0
  }

  /** The card condition `item.date === winner.date`. */
  predicate IsWinnerCard(av: seq<DateTally>, i: nat)
    requires i < |av|
  {
    av[i].date == Winner(av).date
  }

  /**
   * When the dates are distinct and no total is negative, the marked card is
   * exactly the first date with the highest total.
   */
  lemma WinnerCardIffFirstMaximum(av: seq<DateTally>, i: nat)
    requires i < |av|
    requires forall j :: 0 <= j < |av| ==> av[j].total >= 0
    requires forall j, k :: 0 <= j < k < |av| ==> av[j].date != av[k].date
    ensures IsWinnerCard(av, i) <==> i == FirstMaximum(av)
  {
    WinnerIsFirstMaximum(av);
    var k := FirstMaximum(av);
    if i != k {
      assert av[i].date != av[k].date by {
        if i < k {
          assert av[i].date != av[k].date;
        } else {
          assert av[k].date != av[i].date;
        }
      }
    }
  }

  /** The winner banner is shown exactly when some date has at least one vote. */
  lemma BannerIffSomeVote(av: seq<DateTally>)
    requires forall i :: 0 <= i < |av| ==> av[i].total >= 0
    ensures ShowsBanner(av) <==> exists i :: 0 <= i < |av| && av[i].total > 0
  {
    WinnerIsFirstMaximum(av);
  }

  /** With no votes at all there is no banner, yet the first date's card is still marked. */
  lemma NoVotesMarksFirstCard(av: seq<DateTally>)
    requires av != []
    requires forall i :: 0 <= i < |av| ==> av[i].total == 0
    ensures Winner(av) == av[0]
    ensures !ShowsBanner(av) && IsWinnerCard(av, 0)
  {
    assert IsFirstMaximum(av, 0);
    ReduceFindsFirstMaximum(NoWinner, av, 0);
  }

  // ---------------------------------------------------------------------------
  // Plain-text export
  // ---------------------------------------------------------------------------

  /** `guests.map((guest) => guest.guest_name)`. */
  function Names(guests: seq<ResponseRow>): (names: seq<string>)
    ensures |names| == |guests|
    ensures forall i :: 0 <= i < |guests| ==> names[i] == guests[i].guestName
  {
    if guests == [] then [] else [guests[0].guestName] + Names(guests[1..])
  }

  /** `${date} - ${total} votos - ${names.join(", ")}`: a line starts with its date and ends with the names. */
  function Line(item: DateTally): (line: string)
    ensures |item.date| < |line| && line[..|item.date|] == item.date
    ensures var names := Join(Names(item.guests), ", ");
      |names| <= |line| && line[|line| - |names|..] == names
  {
    item.date + " - " + IntToString(item.total) + " votos - " + Join(Names(item.guests), ", ")
  }

  function Lines(av: seq<DateTally>): (lines: seq<string>)
    ensures |lines| == |av|
    ensures forall i :: 0 <= i < |av| ==> lines[i] == Line(av[i])
  {
    if av == [] then [] else [Line(av[0])] + Lines(av[1..])
  }

  /** `resultsText`: one line per date, joined by newlines. */
  function ResultsText(av: seq<DateTally>): (text: string)
    ensures text == [] <==> av == []
  {
    JoinStartsWithFirst(Lines(av), "\n");
    Join(Lines(av), "\n")
  }

  /** No date and no guest name holds a line break. */
  ghost predicate SingleLineFields(av: seq<DateTally>) {
    forall i :: 0 <= i < |av| ==>
      '\n' !in av[i].date && forall g :: g in av[i].guests ==> '\n' !in g.guestName
  }

  lemma LineIsSingleLine(item: DateTally)
    requires '\n' !in item.date
    requires forall g :: g in item.guests ==> '\n' !in g.guestName
    ensures '\n' !in Line(item)
  {
    var names := Names(item.guests);
    forall j | 0 <= j < |names| ensures '\n' !in names[j] {
      assert item.guests[j] in item.guests;
    }
    JoinExcludes(names, ", ", '\n');
    var n := IntToString(item.total);
    assert '\n' !in n by {
      forall k | 0 <= k < |n| ensures n[k] != '\n' {
        if k > 0 {
          assert IsDigit(n[k]);
        }
      }
    }
  }

  /**
   * No dates give the empty text; otherwise splitting the text at its line
   * breaks gives back exactly one line per date, in order.
   */
  lemma ResultsTextSplitsIntoLines(av: seq<DateTally>)
    requires SingleLineFields(av)
    ensures av == [] ==> ResultsText(av) == ""
    ensures av != [] ==> Split(ResultsText(av), '\n') == Lines(av)
  {
    if av != [] {
      var lines := Lines(av);
      forall i | 0 <= i < |lines| ensures '\n' !in lines[i] {
        LineIsSingleLine(av[i]);
      }
      SplitJoin(lines, '\n');
    }
  }

  /** `s` begins with `prefix`. */
  predicate StartsWith(s: string, prefix: string) {
    |prefix| <= |s| && s[..|prefix|] == prefix
  }

  /**
   * Reads a line of the export: the date is the text before the first space,
   * then come the count and the names text.
   */
  function ParseLine(line: string): Option<(string, nat, string)> {
    var date := PrefixWithout(line, ' ');
    match ParseCount(line[|date|..])
    case None => None
    case Some((n, names)) => Some((date, n, names))
  }

  /** Reads `" - "` and then the vote count and the names text. */
  function ParseCount(rest: string): Option<(nat, string)> {
    if StartsWith(rest, " - ") then ParseVotes(rest[3..]) else None
  }

  /**
   * Reads a run of digits followed by `" votos - "`, giving the number the
   * digits spell and the text after it.
   */
  function ParseVotes(s: string): Option<(nat, string)> {
    var digits := DigitPrefix(s);
    if digits != [] && StartsWith(s[|digits|..], " votos - ") then Some((ParseDigits(digits), s[|digits| + 9..]))
    else None
  }

  /**
   * A line reads back as its date, its count and its names joined by `", "`,
   * for a date without spaces (as ISO dates are).
   */
  lemma LineRoundTrip(item: DateTally)
    requires ' ' !in item.date && item.total >= 0
    ensures ParseLine(Line(item)) == Some((item.date, item.total, Join(Names(item.guests), ", ")))
  {
    var digits := IntToString(item.total);
    var names := Join(Names(item.guests), ", ");
    var afterCount := " votos - " + names;
    var tail := " - " + digits + afterCount;
    assert Line(item) == item.date + tail;
    assert StartsWith(afterCount, " votos - ");
    assert afterCount[9..] == names;
    PrefixWithoutStops(item.date, tail, ' ');
    assert (item.date + tail)[|item.date|..] == tail;
    CountParses(digits, afterCount);
  }

  /** The count part of a line reads back as the number its digits spell and the text after it. */
  lemma CountParses(digits: string, afterCount: string)
    requires digits != [] && forall k :: 0 <= k < |digits| ==> IsDigit(digits[k])
    requires StartsWith(afterCount, " votos - ")
    ensures ParseCount(" - " + digits + afterCount) == Some((ParseDigits(digits), afterCount[9..]))
  {
    var rest := " - " + (digits + afterCount);
    assert " - " + digits + afterCount == rest;
    assert rest[..3] == " - ";
    assert rest[3..] == digits + afterCount;
    VotesParse(digits, afterCount);
  }

  /** Digits followed by `" votos - "` read back as the number they spell and the text after it. */
  lemma VotesParse(digits: string, afterCount: string)
    requires digits != [] && forall k :: 0 <= k < |digits| ==> IsDigit(digits[k])
    requires StartsWith(afterCount, " votos - ")
    ensures ParseVotes(digits + afterCount) == Some((ParseDigits(digits), afterCount[9..]))
  {
    assert !IsDigit(afterCount[0]) by {
      assert afterCount[..9][0] == ' ';
    }
    DigitPrefixStops(digits, afterCount);
    assert (digits + afterCount)[|digits|..] == afterCount;
    assert (digits + afterCount)[|digits| + 9..] == afterCount[9..];
  }

  /** Reads the names text of a line: split at commas, each piece trimmed. */
  function ReadNames(text: string): (names: seq<string>)
    ensures |names| >= 1
  {
    TrimAll(Split(text, ','))
  }

  /** Every name of `names` but the first, with a space in front. */
  function SpaceEach(names: seq<string>): (spaced: seq<string>)
    ensures |spaced| == |names|
    ensures forall i :: 0 <= i < |names| ==> spaced[i] == " " + names[i]
  {
    if names == [] then [] else [" " + names[0]] + SpaceEach(names[1..])
  }

  /** Joining with `", "` is joining with `","` after a space is put before each later name. */
  lemma {:induction false} JoinSpaced(names: seq<string>)
    requires names != []
    ensures Join(SpaceEach(names), ",") == " " + Join(names, ", ")
  {
    if |names| > 1 {
      JoinSpaced(names[1..]);
      var first, rest := names[0], Join(names[1..], ", ");
      assert SpaceEach(names)[1..] == SpaceEach(names[1..]);
      assert Join(SpaceEach(names), ",") == (" " + first) + "," + (" " + rest);
      assert (" " + first) + "," + (" " + rest) == " " + (first + ", " + rest);
    }
  }

  /** `names.join(", ")` as a comma join of the first name and the spaced later ones. */
  lemma CommaSpaceJoin(names: seq<string>)
    requires names != []
    ensures Join(names, ", ") == Join([names[0]] + SpaceEach(names[1..]), ",")
  {
    var spaced := SpaceEach(names[1..]);
    var parts := [names[0]] + spaced;
    assert parts[0] == names[0] && parts[1..] == spaced;
    if |names| == 1 {
      assert parts == [names[0]];
    } else {
      JoinSpaced(names[1..]);
      var rest := Join(names[1..], ", ");
      assert Join(parts, ",") == names[0] + "," + Join(spaced, ",");
      assert Join(names, ", ") == names[0] + ", " + rest;
      CommaThenSpace(names[0], rest);
    }
  }

  lemma CommaThenSpace(a: string, b: string)
    ensures a + "," + (" " + b) == a + ", " + b
  {
    assert ", " == "," + " ";
    assert a + ", " + b == a + ("," + " ") + b;
  }

  /** A trimmed string with one space in front trims back to itself. */
  lemma TrimAfterSpace(n: string)
    requires IsTrimmed(n)
    ensures Trim(" " + n) == n
  {
    var s := " " + n;
    assert s[1..] == n;
    assert TrimStart(s) == TrimStart(n) == n;
    TrimmedIsFixed(n);
  }

  /**
   * The names of a line read back: for at least one guest, and names that
   * hold no comma and are trimmed (as the submission stores them), splitting
   * the names text at commas and trimming each piece gives the names in order.
   */
  lemma NamesReadBack(names: seq<string>)
    requires names != []
    requires forall i :: 0 <= i < |names| ==> ',' !in names[i]
    requires forall i :: 0 <= i < |names| ==> IsTrimmed(names[i])
    ensures ReadNames(Join(names, ", ")) == names
  {
    var parts := [names[0]] + SpaceEach(names[1..]);
    CommaSpaceJoin(names);
    SpacedCommaFree(names);
    SplitJoin(parts, ',');
    assert Split(Join(names, ", "), ',') == parts;
    TrimSpaced(names);
  }

  /** Putting spaces before comma-free names keeps them comma-free. */
  lemma SpacedCommaFree(names: seq<string>)
    requires names != []
    requires forall i :: 0 <= i < |names| ==> ',' !in names[i]
    ensures forall i :: 0 <= i < |names| ==> ',' !in ([names[0]] + SpaceEach(names[1..]))[i]
  {
    var parts := [names[0]] + SpaceEach(names[1..]);
    forall i | 0 <= i < |names| ensures ',' !in parts[i] {
      if i > 0 {
        assert parts[i] == " " + names[i];
      }
    }
  }

  /** Trimming the first name and the spaced later ones gives back the names. */
  lemma TrimSpaced(names: seq<string>)
    requires names != []
    requires forall i :: 0 <= i < |names| ==> IsTrimmed(names[i])
    ensures TrimAll([names[0]] + SpaceEach(names[1..])) == names
  {
    var trimmed := TrimAll([names[0]] + SpaceEach(names[1..]));
    assert |trimmed| == |names|;
    forall i | 0 <= i < |names| ensures trimmed[i] == names[i] {
      TrimSpacedAt(names, i);
    }
  }

  lemma TrimSpacedAt(names: seq<string>, i: nat)
    requires i < |names| && IsTrimmed(names[i])
    ensures Trim(([names[0]] + SpaceEach(names[1..]))[i]) == names[i]
  {
    if i == 0 {
      TrimmedIsFixed(names[0]);
    } else {
      assert ([names[0]] + SpaceEach(names[1..]))[i] == " " + names[i];
      TrimAfterSpace(names[i]);
    }
  }



  /**
   * The export round trip: splitting the text into lines and reading each
   * line gives back every date, its count and its names text, in order.
   */
  lemma ExportRoundTrip(av: seq<DateTally>, i: nat)
    requires i < |av|
    requires SingleLineFields(av)
    requires forall j :: 0 <= j < |av| ==> ' ' !in av[j].date && av[j].total >= 0
    ensures |Split(ResultsText(av), '\n')| == |av|
    ensures ParseLine(Split(ResultsText(av), '\n')[i])
      == Some((av[i].date, av[i].total, Join(Names(av[i].guests), ", ")))
  {
    ResultsTextSplitsIntoLines(av);
    LineRoundTrip(av[i]);
  }
}

=== FILE: AvailabilityForm.dfy ===
/**
 * The guest-facing availability form: a two-step wizard that first collects
 * a name and then a selection of candidate dates, and posts both, with the
 * event id, to the submission action.
 */
module AvailabilityForm {
  import opened Wrappers
  import opened Text
  import SubmitAction

  /** The wizard's `step`: `"name"` or `"dates"`. */
  datatype Step = NameStep | DatesStep

  // ---------------------------------------------------------------------------
  // Derived values
  // ---------------------------------------------------------------------------

  /** The values are pairwise distinct. */
  predicate NoDuplicates(s: seq<string>) {
    forall i, j :: 0 <= i < j < |s| ==> s[i] != s[j]
  }

  /** `prev.filter((item) => item !== value)`: every occurrence of `value` removed, the rest kept in order. */
  function RemoveAll(s: seq<string>, value: string): (r: seq<string>)
    ensures multiset(r) == multiset(s)[value := 0]
    ensures forall x :: x in r <==> x in s && x != value
  {
    if s == [] then []
    else
      var n := |s|;
      assert s == s[..n - 1] + [s[n - 1]];
      RemoveAll(s[..n - 1], value) + (if s[n - 1] == value then [] else [s[n - 1]])
  }

  /**
   * The new selection computed by `toggleDate(value)`: without `value` when it
   * was selected, otherwise with `value` added at the end.
   */
  function ToggleDate(prev: seq<string>, value: string): (next: seq<string>)
    ensures value in next <==> value !in prev
    ensures forall x :: x != value ==> (x in next <==> x in prev)
    ensures value !in prev ==> next == prev + [value]
    ensures value in prev ==> next == RemoveAll(prev, value)
    ensures value in prev ==> multiset(next) == multiset(prev)[value := 0]
  {
    if value in prev then RemoveAll(prev, value) else prev + [value]
  }

  /** The filter on a sequence with one more element at the end. */
  lemma RemoveAllSnoc(s: seq<string>, x: string, value: string)
    ensures RemoveAll(s + [x], value) == RemoveAll(s, value) + (if x == value then [] else [x])
  {
    var t := s + [x];
    assert t[..|t| - 1] == s;
  }

  /** Removing a value that is absent changes nothing. */
  lemma {:induction false} RemoveAbsent(s: seq<string>, value: string)
    requires value !in s
    ensures RemoveAll(s, value) == s
  {
    if s != [] {
      var n := |s|;
      var front, x := s[..n - 1], s[n - 1];
      assert s == front + [x];
      assert value !in front && x != value;
      RemoveAbsent(front, value);
      RemoveAllSnoc(front, x, value);
    }
  }

  /** The filter works element by element: it distributes over concatenation, so it keeps the order. */
  lemma {:induction false} RemoveAllConcat(a: seq<string>, b: seq<string>, value: string)
    ensures RemoveAll(a + b, value) == RemoveAll(a, value) + RemoveAll(b, value)
    decreases |b|
  {
    if b == [] {
      assert a + b == a;
      assert RemoveAll(b, value) == [];
    } else {
      var n := |b|;
      var front, x := b[..n - 1], b[n - 1];
      var last := if x == value then [] else [x];
      assert b == front + [x];
      assert a + b == (a + front) + [x];
      RemoveAllSnoc(a + front, x, value);
      RemoveAllSnoc(front, x, value);
      RemoveAllConcat(a, front, value);
      var p, q := RemoveAll(a, value), RemoveAll(front, value);
      assert (p + q) + last == p + (q + last);
    }
  }

  /** Removing a value that occurs once, between `before` and `after`, leaves `before + after`. */
  lemma RemoveOnce(before: seq<string>, v: string, after: seq<string>)
    requires v !in before && v !in after
    ensures RemoveAll(before + [v] + after, v) == before + after
  {
    RemoveAllConcat(before + [v], after, v);
    RemoveAllSnoc(before, v, v);
    RemoveAbsent(before, v);
    RemoveAbsent(after, v);
    assert RemoveAll(before + [v], v) == before + [];
    assert before + [] == before;
  }

  /** In a duplicate-free sequence, the element at `i` occurs neither before nor after `i`. */
  lemma OccursOnce(s: seq<string>, i: nat)
    requires NoDuplicates(s) && i < |s|
    ensures s[i] !in s[..i] && s[i] !in s[i + 1..]
  {
    assert forall j :: 0 <= j < i ==> s[..i][j] == s[j];
    assert forall j :: i < j < |s| ==> s[i + 1..][j - i - 1] == s[j];
  }

  /**
   * Unselecting the date at position `i` of a duplicate-free selection leaves
   * the dates before it and the dates after it, in their order.
   */
  lemma RemoveSelected(s: seq<string>, i: nat)
    requires NoDuplicates(s) && i < |s|
    ensures RemoveAll(s, s[i]) == s[..i] + s[i + 1..]
  {
    OccursOnce(s, i);
    assert s == s[..i] + [s[i]] + s[i + 1..];
    RemoveOnce(s[..i], s[i], s[i + 1..]);
  }

  /** Toggling a value that was not selected, and toggling it again, restores the selection. */
  lemma ToggleTwiceRestores(prev: seq<string>, value: string)
    requires value !in prev
    ensures ToggleDate(ToggleDate(prev, value), value) == prev
  {
    var once := prev + [value];
    assert once[..|once| - 1] == prev;
    RemoveAbsent(prev, value);
  }

  lemma NoDuplicatesSnoc(s: seq<string>, x: string)
    ensures NoDuplicates(s + [x]) <==> NoDuplicates(s) && x !in s
  {
    var t := s + [x];
    if NoDuplicates(t) {
      forall i, j | 0 <= i < j < |s| ensures s[i] != s[j] {
        assert t[i] == s[i] && t[j] == s[j];
      }
      forall i | 0 <= i < |s| ensures s[i] != x {
        assert t[i] == s[i] && t[|s|] == x;
      }
    }
  }

  lemma {:induction false} RemoveAllKeepsNoDuplicates(s: seq<string>, value: string)
    requires NoDuplicates(s)
    ensures NoDuplicates(RemoveAll(s, value))
  {
    if s != [] {
      var n := |s|;
      var front := s[..n - 1];
      assert s == front + [s[n - 1]];
      NoDuplicatesSnoc(front, s[n - 1]);
      RemoveAllKeepsNoDuplicates(front, value);
      if s[n - 1] != value {
        assert s[n - 1] !in multiset(RemoveAll(front, value));
        NoDuplicatesSnoc(RemoveAll(front, value), s[n - 1]);
      }
    }
  }

  /** A selection without duplicates keeps none after a toggle. */
  lemma ToggleKeepsNoDuplicates(prev: seq<string>, value: string)
    requires NoDuplicates(prev)
    ensures NoDuplicates(ToggleDate(prev, value))
  {
    if value in prev {
      RemoveAllKeepsNoDuplicates(prev, value);
    } else {
      NoDuplicatesSnoc(prev, value);
    }
  }

  /** Ascending by the order used for ISO date strings. */
  predicate IsSorted(s: seq<string>) {
    forall i, j :: 0 <= i < j < |s| ==> LexLessEq(s[i], s[j])
  }

  /** Inserts `x` into a sorted sequence, before the first element it does not exceed. */
  function Insert(x: string, sorted: seq<string>): (r: seq<string>)
    requires IsSorted(sorted)
    ensures IsSorted(r)
    ensures multiset(r) == multiset(sorted) + multiset{x}
  {
    if sorted == [] then [x]
    else if LexLessEq(x, sorted[0]) then
      assert forall j :: 0 <= j < |sorted| ==> LexLessEq(x, sorted[j]) by {
        forall j | 0 <= j < |sorted| ensures LexLessEq(x, sorted[j]) {
          if j > 0 {
            LexTransitive(x, sorted[0], sorted[j]);
          }
        }
      }
      [x] + sorted
    else
      LexTotal(x, sorted[0]);
      var rest := Insert(x, sorted[1..]);
      assert sorted == [sorted[0]] + sorted[1..];
      HeadBelowInserted(x, sorted, rest);
      [sorted[0]] + rest
  }

  /** The head of a sorted list is below everything in its tail with `x` inserted, when it is below `x`. */
  lemma HeadBelowInserted(x: string, sorted: seq<string>, rest: seq<string>)
    requires IsSorted(sorted) && sorted != [] && LexLessEq(sorted[0], x)
    requires multiset(rest) == multiset(sorted[1..]) + multiset{x}
    ensures forall y :: y in rest ==> LexLessEq(sorted[0], y)
  {
    forall y | y in rest ensures LexLessEq(sorted[0], y) {
      assert y in multiset(rest);
      if y != x {
        assert y in multiset(sorted[1..]);
        var j :| 0 <= j < |sorted[1..]| && sorted[1..][j] == y;
        assert sorted[j + 1] == y;
      }
    }
  }

  /** `sortedDates`: the dates in ascending order. */
  function SortDates(dates: seq<string>): (sorted: seq<string>)
    ensures IsSorted(sorted)
    ensures multiset(sorted) == multiset(dates)
  {
    if dates == [] then []
    else
      assert dates == [dates[0]] + dates[1..];
      Insert(dates[0], SortDates(dates[1..]))
  }

  /**
   * A sorted permutation is unique: whatever algorithm the runtime's sort
   * uses, its result is SortDates.
   */
  lemma {:induction false} SortedPermutationUnique(a: seq<string>, b: seq<string>)
    requires IsSorted(a) && IsSorted(b) && multiset(a) == multiset(b)
    ensures a == b
  {
    if a != [] {
      SortedHeadsEqual(a, b);
      assert a == [a[0]] + a[1..];
      assert b == [b[0]] + b[1..];
      assert multiset(a[1..]) == multiset(a) - multiset{a[0]};
      assert multiset(b[1..]) == multiset(b) - multiset{b[0]};
      SortedPermutationUnique(a[1..], b[1..]);
    } else {
      assert |multiset(b)| == 0;
    }
  }

  /** Two sorted permutations of a non-empty list start with the same element. */
  lemma SortedHeadsEqual(a: seq<string>, b: seq<string>)
    requires IsSorted(a) && IsSorted(b) && multiset(a) == multiset(b) && a != []
    ensures b != [] && a[0] == b[0]
  {
    assert a[0] in multiset(b);
    assert b[0] in multiset(a);
    var i :| 0 <= i < |b| && b[i] == a[0];
    var j :| 0 <= j < |a| && a[j] == b[0];
    assert LexLessEq(b[0], a[0]) by {
      if i > 0 { assert LexLessEq(b[0], b[i]); } else { LexReflexive(a[0]); }
    }
    assert LexLessEq(a[0], b[0]) by {
      if j > 0 { assert LexLessEq(a[0], a[j]); } else { LexReflexive(b[0]); }
    }
    LexAntisymmetric(a[0], b[0]);
  }

  /**
   * `canContinue`: the trimmed name is longer than one UTF-16 code unit. Two
   * characters always pass, and a passing name is never blank.
   */
  predicate CanContinue(name: string): (ok: bool)
    ensures ok ==> Trim(name) != []
    ensures |Trim(name)| >= 2 ==> ok
  {
    Utf16Length(Trim(name)) > 1
  }

  /** For a name in the Basic Multilingual Plane, `canContinue` is "more than one character after trimming". */
  lemma BmpNameContinues(name: string)
    requires forall k :: 0 <= k < |name| ==> (name[k] as int) < 0x1_0000
    ensures CanContinue(name) <==> |Trim(name)| > 1
  {
    TrimKeepsBmp(name);
    Utf16LengthBmp(Trim(name));
  }

  /** Trimming keeps a name inside the Basic Multilingual Plane. */
  lemma TrimKeepsBmp(name: string)
    requires forall k :: 0 <= k < |name| ==> (name[k] as int) < 0x1_0000
    ensures forall k :: 0 <= k < |Trim(name)| ==> (Trim(name)[k] as int) < 0x1_0000
  {
    var t := Trim(name);
    var i := |name| - |TrimStart(name)|;
    assert t == name[i..i + |t|];
    forall k | 0 <= k < |t| ensures (t[k] as int) < 0x1_0000 {
      assert t[k] == name[i + k];
    }
  }

  /** `canSubmit`. */
  predicate CanSubmit(selectedDates: seq<string>) {
    |selectedDates| > 0
  }

  /** `isLoadingDates`. */
  predicate IsLoadingDates(sortedDates: seq<string>) {
    |sortedDates| == 0
  }

  /**
   * The submit button's `disabled={!canSubmit || isLoadingDates}`: submitting
   * is possible exactly when something is selected and there are dates to
   * choose from.
   */
  predicate SubmitDisabled(selectedDates: seq<string>, dates: seq<string>): (disabled: bool)
    ensures !disabled <==> selectedDates != [] && dates != []
  {
    assert |SortDates(dates)| == |multiset(dates)| == |dates|;
    !CanSubmit(selectedDates) || IsLoadingDates(SortDates(dates))
  }

  /** A name of one character outside the Basic Multilingual Plane (an emoji, say) passes `canContinue`. */
  lemma AstralCharContinues(c: char)
    requires (c as int) >= 0x1_0000
    ensures CanContinue([c])
  {
    var name: string := [c];
    assert !IsWhitespace(c);
    TrimmedIsFixed(name);
    Utf16LengthChar(c);
  }

  /**
   * The form asks for more than the action checks: a one-character name (in
   * the Basic Multilingual Plane) cannot leave the name step, yet the action
   * accepts it.
   */
  lemma SingleCharacterNameGap(c: char, form: SubmitAction.FormData)
    requires !IsWhitespace(c) && (c as int) < 0x1_0000
    requires form.name == Some([c])
    requires SubmitAction.FieldValue(form.eventId) != [] && |form.dates| != 0
    ensures !CanContinue([c])
    ensures SubmitAction.IsValid(form)
  {
    BmpCharStops(c);
    SubmitAction.SingleCharacterNameAccepted(form, c);
  }

  /** A name of one character of the Basic Multilingual Plane does not pass `canContinue`. */
  lemma BmpCharStops(c: char)
    requires !IsWhitespace(c) && (c as int) < 0x1_0000
    ensures !CanContinue([c])
  {
    var name: string := [c];
    TrimmedIsFixed(name);
    Utf16LengthChar(c);
    assert Utf16Length(Trim(name)) == 1;
  }

  // ---------------------------------------------------------------------------
  // The wizard's state
  // ---------------------------------------------------------------------------

  /** The component's state: `step`, `name` and `selectedDates`, and the props it was given. */
  class Wizard {
    const eventId: string
    const dates: seq<string>
    var step: Step
    var name: string
    var selectedDates: seq<string>

    /**
     * The selection never holds a date twice and only holds offered dates;
     * the dates step is reached only with a name that passes `canContinue`.
     */
    ghost predicate Valid()
      reads this
    {
      NoDuplicates(selectedDates)
      && (forall d :: d in selectedDates ==> d in dates)
      && (step == DatesStep ==> CanContinue(name))
    }

    /** The initial state: the name step, an empty name, nothing selected. */
    constructor (eventId: string, dates: seq<string>)
      ensures Valid()
      ensures this.eventId == eventId && this.dates == dates
      ensures step == NameStep && name == [] && selectedDates == []
    {
      this.eventId := eventId;
      this.dates := dates;
      step := NameStep;
      name := [];
      selectedDates := [];
    }

    /** Typing in the name input, which only the name step shows. */
    method SetName(value: string)
      requires Valid() && step == NameStep
      modifies this
      ensures Valid()
      ensures name == value && step == NameStep && selectedDates == old(selectedDates)
    {
      name := value;
    }

    /** "Ver fechas": moves to the dates step only when `canContinue`; a disabled button does nothing. */
    method ShowDates()
      requires Valid() && step == NameStep
      modifies this
      ensures Valid()
      ensures step == (if CanContinue(old(name)) then DatesStep else NameStep)
      ensures name == old(name) && selectedDates == old(selectedDates)
    {
      if CanContinue(name) {
        step := DatesStep;
      }
    }

    /** "Editar nombre": back to the name step, keeping the name and the selection. */
    method EditName()
      requires Valid() && step == DatesStep
      modifies this
      ensures Valid()
      ensures step == NameStep && name == old(name) && selectedDates == old(selectedDates)
    {
      step := NameStep;
    }

    /** A click on the button of one of the sorted dates. */
    method Toggle(value: string)
      requires Valid() && step == DatesStep && value in SortDates(dates)
      modifies this
      ensures Valid()
      ensures selectedDates == ToggleDate(old(selectedDates), value)
      ensures step == old(step) && name == old(name)
    {
      assert value in multiset(SortDates(dates));
      ToggleKeepsNoDuplicates(selectedDates, value);
      selectedDates := ToggleDate(selectedDates, value);
    }

    /** "Limpiar": the selection becomes empty and nothing else changes. */
    method Clear()
      requires Valid() && step == DatesStep
      modifies this
      ensures Valid()
      ensures selectedDates == [] && step == old(step) && name == old(name)
    {
      selectedDates := [];
    }

    /**
     * The hidden inputs the dates step posts: the event id, the name as
     * typed and one `dates` value per selected date, in the order of the
     * selection, none of them twice.
     * When the submit button is enabled and the event id is not blank, the
     * action's checks pass.
     */
    function HiddenFields(): (form: SubmitAction.FormData)
      reads this
      requires Valid()
      ensures form.eventId == Some(eventId) && form.name == Some(name)
      ensures form.dates == selectedDates && NoDuplicates(form.dates)
      ensures forall d :: d in form.dates ==> d in dates
      ensures step == DatesStep && !SubmitDisabled(selectedDates, dates) && Trim(eventId) != []
        ==> SubmitAction.IsValid(form)
    {
      SubmitAction.FormData(Some(eventId), Some(name), selectedDates)
    }
  }
}

=== FILE: SubmitAction.dfy ===
/**
 * The server action behind the availability form: it trims and checks the
 * submitted fields, appends one row to the `responses` collection, and picks
 * the page to redirect to. The data store is a sequence of rows that only
 * grows; whether it accepts an insert is an input.
 */
module SubmitAction {
  import opened Wrappers
  import opened Text

  /** The submitted form: `event_id` and `name` may be absent; `dates` holds every `dates` value, in order. */
  datatype FormData = FormData(eventId: Option<string>, name: Option<string>, dates: seq<string>)

  /** A row of the `responses` collection as the action inserts it. */
  datatype Row = Row(eventId: string, guestName: string, availableDates: seq<string>)

  /** `/?error=1`, or `/?sent=1&name=...` carrying the guest's name. */
  datatype Redirect = ErrorRedirect | SentRedirect(name: string)

  /** `String(formData.get(key) || "").trim()`: an absent field reads as the empty string. */
  function FieldValue(field: Option<string>): (v: string)
    ensures field == None ==> v == []
    ensures v == [] || (!IsWhitespace(v[0]) && !IsWhitespace(v[|v| - 1]))
  {
    Trim(field.GetOr(""))
  }

  /**
   * The checks `!eventId || !name || dates.length === 0`: a form passes
   * exactly when neither field is missing or blank and some date was sent.
   */
  predicate IsValid(form: FormData): (valid: bool)
    ensures valid <==> !IsBlank(form.eventId.GetOr("")) && !IsBlank(form.name.GetOr("")) && |form.dates| != 0
  {
    TrimEmptyIffBlank(form.eventId.GetOr(""));
    TrimEmptyIffBlank(form.name.GetOr(""));
    FieldValue(form.eventId) != [] && FieldValue(form.name) != [] && |form.dates| != 0
  }

  /**
   * The row a form becomes: both fields trimmed, the dates as submitted. A
   * valid form gives a row with a non-empty id, name and date list.
   */
  function RowOf(form: FormData): (row: Row)
    ensures row.availableDates == form.dates
    ensures IsValid(form) ==> row.eventId != [] && row.guestName != [] && row.availableDates != []
  {
    Row(FieldValue(form.eventId), FieldValue(form.name), form.dates)
  }

  /**
   * One submission against the rows stored so far: the new rows and the
   * redirect. `insertAccepted` is the store's answer to the insert. It
   * succeeds exactly when the form is valid and the store accepts the row;
   * it then appends one row, holding the trimmed fields and the dates as
   * sent, and redirects with the trimmed name. Otherwise nothing changes.
   */
  function Submit(rows: seq<Row>, form: FormData, insertAccepted: bool): (result: (seq<Row>, Redirect))
    ensures var (after, outcome) := result;
      (outcome.SentRedirect? <==> IsValid(form) && insertAccepted)
      && (outcome.ErrorRedirect? ==> after == rows)
      && (outcome.SentRedirect? ==>
            |after| == |rows| + 1 && after[..|rows|] == rows
            && after[|rows|].eventId == Trim(form.eventId.GetOr(""))
            && after[|rows|].guestName == Trim(form.name.GetOr("")) == outcome.name
            && after[|rows|].availableDates == form.dates)
  {
    if !IsValid(form) then (rows, ErrorRedirect)
    else if !insertAccepted then (rows, ErrorRedirect)
    else (rows + [RowOf(form)], SentRedirect(FieldValue(form.name)))
  }

  /**
   * The redirect target; `encode` stands for `encodeURIComponent`. Only a
   * successful submission reaches a URL with `sent=1`.
   */
  function RedirectUrl(outcome: Redirect, encode: string -> string): (url: string)
    ensures outcome.ErrorRedirect? <==> url == "/?error=1"
    ensures outcome.SentRedirect? <==> |url| >= 8 && url[..8] == "/?sent=1"
    ensures outcome.SentRedirect? ==> url == "/?sent=1&name=" + encode(outcome.name)
  {
    match outcome
    case ErrorRedirect => assert "/?error=1"[2] != "/?sent=1"[2]; "/?error=1"
    case SentRedirect(name) => "/?sent=1&name=" + encode(name)
  }

  /**
   * A missing or blank event id, a missing or blank name, or no dates: the
   * form is refused and nothing is stored, whatever the store would answer.
   */
  lemma BlankFieldsRejected(rows: seq<Row>, form: FormData, insertAccepted: bool)
    requires IsBlank(form.eventId.GetOr("")) || IsBlank(form.name.GetOr("")) || |form.dates| == 0
    ensures !IsValid(form)
    ensures Submit(rows, form, insertAccepted) == (rows, ErrorRedirect)
  {
    TrimEmptyIffBlank(form.eventId.GetOr(""));
    TrimEmptyIffBlank(form.name.GetOr(""));
  }

  /**
   * Nothing is deduplicated: the same valid form sent twice, and accepted
   * twice, leaves two identical rows.
   */
  lemma ResubmissionAppendsTwice(rows: seq<Row>, form: FormData)
    requires IsValid(form)
    ensures Submit(Submit(rows, form, true).0, form, true).0 == rows + [RowOf(form), RowOf(form)]
  {
  }

  /** A one-character name passes the action's checks. */
  lemma SingleCharacterNameAccepted(form: FormData, c: char)
    requires form.name == Some([c]) && !IsWhitespace(c)
    requires FieldValue(form.eventId) != [] && |form.dates| != 0
    ensures IsValid(form) && RowOf(form).guestName == [c]
  {
    var name: string := [c];
    assert form.name.GetOr("") == name;
    TrimmedIsFixed(name);
    assert FieldValue(form.name) == name;
  }

  /** The `responses` collection of the data store: rows are only ever appended. */
  class ResponseStore {
    var rows: seq<Row>

    constructor (initial: seq<Row>)
      ensures rows == initial
    {
      rows := initial;
    }

    /** The store's insert: it appends the row when it accepts it and otherwise reports an error. */
    method Insert(row: Row, accepted: bool) returns (failed: bool)
      modifies this
      ensures failed == !accepted
      ensures rows == if accepted then old(rows) + [row] else old(rows)
    {
      failed := !accepted;
      if accepted {
        rows := rows + [row];
      }
    }
  }

  /** `submitAvailability(formData)`: each redirect ends the action. */
  method SubmitAvailability(store: ResponseStore, form: FormData, insertAccepted: bool) returns (outcome: Redirect)
    modifies store
    ensures (store.rows, outcome) == Submit(old(store.rows), form, insertAccepted)
  {
    var eventId := FieldValue(form.eventId);
    var name := FieldValue(form.name);
    var dates := form.dates;
    if eventId == [] || name == [] || |dates| == 0 {
      return ErrorRedirect;
    }
    var failed := store.Insert(Row(eventId, name, dates), insertAccepted);
    if failed {
      return ErrorRedirect;
    }
    return SentRedirect(name);
  }
}

=== FILE: Text.dfy ===
/**
 * The JavaScript string operations the application is built from, stated on
 * Dafny strings: `trim`, `split` on a one-character separator, `join`,
 * `length` (which counts UTF-16 code units), the decimal rendering of a number
 * inside a template literal, and the ordering `sort` uses on date strings.
 */
module Text {

  /**
   * The characters `String.prototype.trim` strips: ECMAScript's WhiteSpace
   * (tab, vertical tab, form feed, space, no-break space, the byte order mark
   * and every other space separator) and its LineTerminators.
   */
  predicate IsWhitespace(c: char) {
    c == '\t' || c == '\n' || c == '\U{000B}' || c == '\U{000C}' || c == '\r'
    || c == ' ' || c == '\U{00A0}' || c == '\U{1680}'
    || ('\U{2000}' <= c <= '\U{200A}')
    || c == '\U{2028}' || c == '\U{2029}' || c == '\U{202F}' || c == '\U{205F}'
    || c == '\U{3000}' || c == '\U{FEFF}'
  }

  /** `s` without its leading whitespace. */
  function TrimStart(s: string): (r: string)
    ensures |r| <= |s| && r == s[|s| - |r|..]
    ensures forall k :: 0 <= k < |s| - |r| ==> IsWhitespace(s[k])
    ensures r == [] || !IsWhitespace(r[0])
  {
    if s != [] && IsWhitespace(s[0]) then TrimStart(s[1..]) else s
  }

  /** `s` without its trailing whitespace. */
  function TrimEnd(s: string): (r: string)
    ensures |r| <= |s| && r == s[..|r|]
    ensures forall k :: |r| <= k < |s| ==> IsWhitespace(s[k])
    ensures r == [] || !IsWhitespace(r[|r| - 1])
  {
    if s != [] && IsWhitespace(s[|s| - 1]) then TrimEnd(s[..|s| - 1]) else s
  }

  /**
   * `s.trim()`: the slice of `s` left once the whitespace on both sides is
   * cut; it neither starts nor ends with whitespace.
   */
  function Trim(s: string): (r: string)
    ensures r == [] || (!IsWhitespace(r[0]) && !IsWhitespace(r[|r| - 1]))
    ensures var i := |s| - |TrimStart(s)|;
      i + |r| <= |s| && r == s[i..i + |r|]
      && (forall k :: 0 <= k < i ==> IsWhitespace(s[k]))
      && (forall k :: i + |r| <= k < |s| ==> IsWhitespace(s[k]))
  {
    TrimEnd(TrimStart(s))
  }

  /** `s` neither starts nor ends with whitespace. */
  predicate IsTrimmed(s: string) {
    s == [] || (!IsWhitespace(s[0]) && !IsWhitespace(s[|s| - 1]))
  }

  /** A string that neither starts nor ends with whitespace is its own trim. */
  lemma TrimmedIsFixed(s: string)
    requires IsTrimmed(s)
    ensures Trim(s) == s
  {
  }

  /** Every character of `s` is whitespace. */
  predicate IsBlank(s: string) {
    forall k :: 0 <= k < |s| ==> IsWhitespace(s[k])
  }

  /** A string trims to nothing exactly when it is blank. */
  lemma TrimEmptyIffBlank(s: string)
    ensures Trim(s) == [] <==> IsBlank(s)
  {
    if Trim(s) != [] {
      assert s[|s| - |TrimStart(s)|] == Trim(s)[0];
    }
  }

  /** JavaScript's `length`: UTF-16 code units, two for a character outside the Basic Multilingual Plane. */
  function Utf16Length(s: string): (n: nat)
    ensures |s| <= n <= 2 * |s|
  {
    if s == [] then 0
    else Utf16Length(s[..|s| - 1]) + (if s[|s| - 1] as int >= 0x1_0000 then 2 else 1)
  }

  /**
   * One character is one UTF-16 code unit in the Basic Multilingual Plane
   * and a surrogate pair (two units) above it.
   */
  lemma Utf16LengthChar(c: char)
    ensures Utf16Length([c]) == if (c as int) < 0x1_0000 then 1 else 2
  {
    var s: string := [c];
    assert s[..0] == [];
  }

  /** `length` adds up over concatenation; with `Utf16LengthChar` this fixes it on every string. */
  lemma {:induction false} Utf16LengthConcat(a: string, b: string)
    ensures Utf16Length(a + b) == Utf16Length(a) + Utf16Length(b)
    decreases |b|
  {
    if b == [] {
      assert a + b == a;
    } else {
      var n := |b|;
      Utf16LengthConcat(a, b[..n - 1]);
      var ab := a + b;
      assert ab[..|ab| - 1] == a + b[..n - 1];
      assert ab[|ab| - 1] == b[n - 1];
    }
  }

  /** On text in the Basic Multilingual Plane, `length` is the number of characters. */
  lemma {:induction false} Utf16LengthBmp(s: string)
    requires forall k :: 0 <= k < |s| ==> (s[k] as int) < 0x1_0000
    ensures Utf16Length(s) == |s|
  {
    if s != [] {
      Utf16LengthBmp(s[..|s| - 1]);
    }
  }

  /**
   * `s.split(sep)` for a one-character separator: the pieces between the
   * separators, at least one of them (`"".split(",")` is `[""]`), none of
   * them holding the separator.
   */
  function Split(s: string, sep: char): (parts: seq<string>)
    ensures |parts| >= 1
    ensures forall i :: 0 <= i < |parts| ==> sep !in parts[i]
  {
    if s == [] then [[]]
    else
      var rest := Split(s[1..], sep);
      if s[0] == sep then [[]] + rest else [[s[0]] + rest[0]] + rest[1..]
  }

  /** `parts.join(sep)`: the parts with `sep` between neighbours; no parts give the empty string. */
  function Join(parts: seq<string>, sep: string): string
  {
    if parts == [] then []
    else if |parts| == 1 then parts[0]
    else parts[0] + sep + Join(parts[1..], sep)
  }

  /** Joining the pieces of a split with the same separator gives the original string back. */
  lemma {:induction false} JoinSplit(s: string, sep: char)
    ensures Join(Split(s, sep), [sep]) == s
  {
    if s != [] {
      JoinSplit(s[1..], sep);
      var rest := Split(s[1..], sep);
      if s[0] != sep && |rest| > 1 {
        assert Join(rest, [sep]) == rest[0] + [sep] + Join(rest[1..], [sep]);
      }
    }
  }

  /** A string without the separator splits into itself alone. */
  lemma {:induction false} SplitWithoutSeparator(p: string, sep: char)
    requires sep !in p
    ensures Split(p, sep) == [p]
  {
    if p != [] {
      SplitWithoutSeparator(p[1..], sep);
      assert [p[0]] + p[1..] == p;
    }
  }

  /** A separator-free prefix followed by the separator comes off a split as one piece. */
  lemma {:induction false} SplitAtFirstSeparator(p: string, t: string, sep: char)
    requires sep !in p
    ensures Split(p + [sep] + t, sep) == [p] + Split(t, sep)
  {
    if p == [] {
      assert p + [sep] + t == [sep] + t;
      assert ([sep] + t)[1..] == t;
    } else {
      SplitAtFirstSeparator(p[1..], t, sep);
      assert (p + [sep] + t)[1..] == p[1..] + [sep] + t;
      assert [p[0]] + p[1..] == p;
    }
  }

  /** Splitting a join of separator-free parts gives the parts back. */
  lemma {:induction false} SplitJoin(parts: seq<string>, sep: char)
    requires |parts| >= 1
    requires forall i :: 0 <= i < |parts| ==> sep !in parts[i]
    ensures Split(Join(parts, [sep]), sep) == parts
  {
    if |parts| == 1 {
      SplitWithoutSeparator(parts[0], sep);
    } else {
      SplitJoin(parts[1..], sep);
      SplitAtFirstSeparator(parts[0], Join(parts[1..], [sep]), sep);
      assert [parts[0]] + parts[1..] == parts;
    }
  }

  /** A join begins with its first part. */
  lemma JoinStartsWithFirst(parts: seq<string>, sep: string)
    ensures parts != [] ==> |parts[0]| <= |Join(parts, sep)| && Join(parts, sep)[..|parts[0]|] == parts[0]
  {
    if |parts| > 1 {
      var rest := sep + Join(parts[1..], sep);
      assert Join(parts, sep) == parts[0] + rest;
    }
  }

  /** A character occurs in a join only if it occurs in a part or in the separator. */
  lemma {:induction false} JoinExcludes(parts: seq<string>, sep: string, c: char)
    requires c !in sep
    requires forall i :: 0 <= i < |parts| ==> c !in parts[i]
    ensures c !in Join(parts, sep)
  {
    if |parts| > 1 {
      JoinExcludes(parts[1..], sep, c);
    }
  }

  predicate IsDigit(c: char) {
    '0' as int <= c as int <= '9' as int
  }

  function DigitChar(d: nat): (c: char)
    requires d < 10
    ensures IsDigit(c)
  {
    ('0' as int + d) as char
  }

  /** The decimal digits of `n` without leading zeros, as a template literal renders a non-negative integer. */
  function NatToString(n: nat): (s: string)
    ensures |s| >= 1
    ensures forall k :: 0 <= k < |s| ==> IsDigit(s[k])
    ensures |s| > 1 ==> s[0] != '0'
  {
    if n < 10 then [DigitChar(n)] else NatToString(n / 10) + [DigitChar(n % 10)]
  }

  /**
   * A number in a template literal: a minus sign before the digits of a
   * negative one. The digits read back as the number's magnitude.
   */
  function IntToString(n: int): (s: string)
    ensures |s| >= 1 && forall k :: 0 < k < |s| ==> IsDigit(s[k])
    ensures n >= 0 ==> (forall k :: 0 <= k < |s| ==> IsDigit(s[k])) && ParseDigits(s) == n
    ensures n < 0 ==> s[0] == '-' && ParseDigits(s[1..]) == -n
  {
    if n < 0 then
      ParseNatToString(-n);
      var digits := NatToString(-n);
      assert ("-" + digits)[1..] == digits;
      "-" + digits
    else
      ParseNatToString(n);
      NatToString(n)
  }

  /** The value of a string of decimal digits. */
  function ParseDigits(s: string): nat
    requires forall k :: 0 <= k < |s| ==> IsDigit(s[k])
  {
    if s == [] then 0
    else
      assert IsDigit(s[|s| - 1]);
      ParseDigits(s[..|s| - 1]) * 10 + (s[|s| - 1] as int - '0' as int)
  }

  /** Reading back the decimal rendering of a number gives the number. */
  lemma {:induction false} ParseNatToString(n: nat)
    ensures ParseDigits(NatToString(n)) == n
  {
    if n >= 10 {
      ParseNatToString(n / 10);
      var s := NatToString(n);
      assert s[..|s| - 1] == NatToString(n / 10);
    }
  }

  /** The longest prefix of `s` without the character `c`. */
  function PrefixWithout(s: string, c: char): (p: string)
    ensures |p| <= |s| && p == s[..|p|] && c !in p
    ensures |p| < |s| ==> s[|p|] == c
  {
    if s == [] || s[0] == c then [] else [s[0]] + PrefixWithout(s[1..], c)
  }

  /** The longest prefix of `s` made of decimal digits. */
  function DigitPrefix(s: string): (p: string)
    ensures |p| <= |s| && p == s[..|p|]
    ensures forall k :: 0 <= k < |p| ==> IsDigit(p[k])
    ensures |p| < |s| ==> !IsDigit(s[|p|])
  {
    if s == [] || !IsDigit(s[0]) then [] else [s[0]] + DigitPrefix(s[1..])
  }

  /** A prefix free of `c` that is followed by `c` is exactly what PrefixWithout takes. */
  lemma {:induction false} PrefixWithoutStops(a: string, b: string, c: char)
    requires c !in a && b != [] && b[0] == c
    ensures PrefixWithout(a + b, c) == a
  {
    if a != [] {
      assert (a + b)[1..] == a[1..] + b;
      PrefixWithoutStops(a[1..], b, c);
      assert [a[0]] + a[1..] == a;
    }
  }

  /** A run of digits followed by a non-digit is exactly what DigitPrefix takes. */
  lemma {:induction false} DigitPrefixStops(a: string, b: string)
    requires forall k :: 0 <= k < |a| ==> IsDigit(a[k])
    requires b != [] && !IsDigit(b[0])
    ensures DigitPrefix(a + b) == a
  {
    if a != [] {
      assert IsDigit(a[0]);
      assert (a + b)[1..] == a[1..] + b;
      DigitPrefixStops(a[1..], b);
      assert [a[0]] + a[1..] == a;
    }
  }

  /** Code-point lexicographic order: a proper prefix comes first. */
  predicate LexLessEq(a: string, b: string)
  {
    a == [] || (b != [] && (a[0] < b[0] || (a[0] == b[0] && LexLessEq(a[1..], b[1..]))))
  }

  lemma {:induction false} LexReflexive(a: string)
    ensures LexLessEq(a, a)
  {
    if a != [] {
      LexReflexive(a[1..]);
    }
  }

  lemma {:induction false} LexTotal(a: string, b: string)
    ensures LexLessEq(a, b) || LexLessEq(b, a)
  {
    if a != [] && b != [] && a[0] == b[0] {
      LexTotal(a[1..], b[1..]);
    }
  }

  lemma {:induction false} LexTransitive(a: string, b: string, c: string)
    requires LexLessEq(a, b) && LexLessEq(b, c)
    ensures LexLessEq(a, c)
  {
    if a != [] && b != [] && c != [] && a[0] == b[0] == c[0] {
      LexTransitive(a[1..], b[1..], c[1..]);
    }
  }

  lemma {:induction false} LexAntisymmetric(a: string, b: string)
    requires LexLessEq(a, b) && LexLessEq(b, a)
    ensures a == b
  {
    if a != [] && b != [] {
      LexAntisymmetric(a[1..], b[1..]);
      assert a == [a[0]] + a[1..];
      assert b == [b[0]] + b[1..];
    }
  }
}

=== FILE: Wrappers.dfy ===
/** An optional value: the model's stand-in for JavaScript's `null` and `undefined`. */
module Wrappers {

  datatype Option<+T> = None | Some(value: T) {

    /** The value, or `default` when there is none. */
    function GetOr(default: T): T {
      match this
      case Some(v) => v
      case None => default
    }
  }
}
